=== FILE: README.md ===
# Chess agent decision logic, modelled in Dafny

This project models the decision engine of a small chess-playing agent:

- **Evaluator.** The six counting heuristics of `agent.py` (material, mobility, center control, pawn shield, threats, piece activation) and their weighted sum `evaluate`.
- **Search.** The depth-bounded, fail-soft minimax with alpha-beta pruning (`min_value` / `max_value`).
- **Root selection.** The `max(moves, key=...)` over every legal move.
- **Position adapter.** The `Chess` class of `state.py`: the legality guard in `update`, the outcome-to-code mapping, copy-on-move `do_move`, and `moves`.

The rules engine (python-chess) is not reimplemented. It appears as an `Engine` value of total functions over the move stack: the legal moves, the outcome, the piece placement, and the parse and text form of a move. A game (`ChessState.Chess`) is its move stack. It is an immutable value, so a successor never aliases its parent.

Modules and files:

| file | module | models |
|---|---|---|
| chess_types.dfy | ChessTypes | colours, piece kinds, squares 0..63, moves, the `PIECE_VALUES` table, the starting board |
| evaluator.dfy | Evaluator | the sub-heuristics over a `Snapshot`: board, side to move, legal moves, and legal moves after a null move |
| search.dfy | Search | the game tree, `AlphaBeta` (one function for both roles), the unpruned reference `Minimax`, pruning soundness, first-maximum selection |
| state.dfy | ChessState | `update`, `do_move`, `moves`, `copy` and the null-move probe |
| agent.dfy | Agent | the snapshot the evaluator reads from a game, unfolding a game into the search tree, root selection, and evaluations staying below the sentinels |

## Model

| member | source | states |
|---|---|---|
| ChessTypes.ValueOf | agent.py:11 | A piece kind has a table value exactly when it is not the king. Every value is at most 9. |
| Evaluator.Material | agent.py:66-71 | One colour's material is at most 9 * 64: every valued piece is worth at most a queen and there are at most 64 of them. |
| Evaluator.MaterialOfPlacedPiece | agent.py:66-71 | A piece placed on an empty square adds exactly its table value to its own colour's material (nothing for a king). |
| Evaluator.MaterialOfOtherColour | agent.py:66-71 | A piece placed on an empty square leaves the other colour's material unchanged. |
| Evaluator.MaterialIgnoresKings | agent.py:66-71 | Two boards with the same non-king pieces have the same material for each colour, so kings contribute nothing. |
| Evaluator.MaterialBound | agent.py:66-71 | The five piece sets the material counts are pairwise disjoint sets of squares, so one colour has at most 64 pawns, knights, bishops, rooks and queens together. |
| Evaluator.SymmetricMaterialBalance | agent.py:168 | On a colour-symmetric board (every piece mirrored onto a piece of the other colour) the material difference is 0. |
| Evaluator.InitialMaterialBalance | agent.py:168 | The standard starting position is colour-symmetric, and its material difference is 0. |
| Evaluator.Mobility | agent.py:73-79 | Mobility is the length of my colour's legal-move list: the direct list when I am to move, the list after a null move otherwise. |
| Evaluator.RingWeight | agent.py:82-90 | A destination scores 2 exactly on the four inner squares, 1 exactly on the twelve outer squares, and 0 elsewhere. |
| Evaluator.OccupancyBonus | agent.py:92-106 | A square holding my pawn adds 1 + 5 = 6, one holding another of my pieces adds that piece's table value, and an empty square or an opponent piece adds 0. No square adds more than 9. |
| Evaluator.CenterControl | agent.py:81-107 | Center control is at most 2 per legal move of the side to move plus 9 for each of the 16 ring squares. |
| Evaluator.CenterControlAddMove | agent.py:87-90 | Each legal move of the side to move adds exactly the ring weight of its destination. |
| Evaluator.CenterControlEmpty | agent.py:86-107 | An empty board with no legal moves has center control 0. |
| Evaluator.CenterControlPlace | agent.py:92-106 | Placing a piece on an empty square adds exactly its occupancy bonus when the square is on the inner or the outer ring, and nothing otherwise. |
| Evaluator.CenterControlProperties | agent.py:81-107 | Center control is at most 2 per legal move plus 9 per ring square, and changing the opponent's pieces never changes it. |
| Evaluator.ShieldOf | agent.py:110-118 | Exactly the eight listed corner squares have a shield zone, and each zone has 3 squares. |
| Evaluator.CornerKingsFrom | agent.py:121-123 | The number of my kings on corner squares among the squares scanned is bounded by the number of squares scanned. |
| Evaluator.PawnShield | agent.py:109-127 | The pawn shield is at most 3 per own king on a corner square, and so at most 3 * 64. |
| Evaluator.KingShieldCounts | agent.py:120-126 | A square with my king on a corner scores 1 per pawn of either colour on its three shield squares: 3 exactly when all three hold pawns, 0 exactly when none does. Any other square scores 0. |
| Evaluator.PawnShieldOneKing | agent.py:119-127 | When my only king stands on square k, the pawn shield equals the shield score of k. |
| Evaluator.ShieldFromOneKing | agent.py:121-126 | With my kings on no square but k, scanning the squares from lo upward scores k's shield when lo is at most k, and 0 otherwise. |
| Evaluator.PawnShieldBound | agent.py:120-127 | The pawn shield adds at most 3 per own king on a corner square, so it is 0 when no own king stands on a corner. |
| Evaluator.PawnShieldIgnoresPawnColour | agent.py:124-126 | Boards with pawns on the same squares and my kings on the same squares score the same shield, whoever owns the pawns. |
| Evaluator.ThreatValue | agent.py:136-141 | A move threatens at most 20. It threatens 20 when it lands on my king, the piece's table value when it lands on another of my pieces, and nothing when it lands on an empty square or an opponent piece. |
| Evaluator.Threats | agent.py:129-142 | Threats from player's perspective are the threat values of the legal moves of player's opponent, at most 20 per move. |
| Evaluator.ThreatsProperties | agent.py:129-142 | Threats scan exactly the legal moves of the opponent of `player`. The total is at most 20 per scanned move, and the opponent's pieces never change it. |
| Evaluator.Activation | agent.py:144-165 | Piece activation is at most 31, the value of all seven home pieces. |
| Evaluator.ActivationRange | agent.py:144-165 | Activation lies in 0..31, and it is 31 exactly when all seven of player's rooks, knights, bishops and queen stand on their home squares. |
| Evaluator.ActivationLosesHomePiece | agent.py:158-164 | Taking one of player's home pieces off its home square lowers the activation by exactly that piece's table value. |
| Evaluator.InitialActivation | agent.py:145-157 | In the starting position both colours score the full 31. |
| Evaluator.Evaluate | agent.py:167-174 | The weighted sum is bounded above by 5 * 9 * 64 plus 82 per legal move of mine, 4 per legal move of the side to move and 480, and below by -(5 * 9 * 64) less 80 per legal move of the opponent and 93. Only the move-list terms grow without bound. |
| ChessState.Code | state.py:19-27 | Each outcome maps to its own code in both directions: none ↔ None, draw ↔ 0, White wins ↔ -1, Black wins ↔ +1. |
| ChessState.CodeRoundTrip | state.py:19-27 | Every outcome is recovered from its code. |
| ChessState.Update | state.py:9-27 | A move is refused exactly when its text does not parse or it is not legal, and a refused move leaves the game unchanged. Otherwise the stack gains exactly that move and the code is exactly the code of the new outcome: None, 0, -1 for a White win or +1 for a Black win. |
| ChessState.Copy | state.py:40-43 | A copy is the same game as the original: the same move stack, so the same position and side to move. |
| ChessState.IllegalMoveRefused | state.py:15-16 | An unparsable or illegal move text gives `Rejected` from update and `WrongMove` from do_move, and the game stays as it was. |
| ChessState.DoMove | state.py:29-32 | do_move fails exactly on a refused move. Otherwise it returns a game whose stack is the receiver's stack plus that move. |
| ChessState.Moves | state.py:34-35 | moves lists one text per legal move, in the engine's order. |
| ChessState.MovesAccepted | state.py:29-35 | Every text moves lists is accepted by do_move. The successor is the receiver plus exactly that move, so siblings never see each other's moves. |
| ChessState.ProbeRestores | agent.py:76-78 | Pushing a null move and popping it restores the game. In between, the other side is to move. |
| ChessState.ProbeFor | agent.py:74-77 | The probe position has the requested colour to move. It is the game itself or the game plus one null move that pops back to it. |
| Agent.MobilityCountsOwnMoves | agent.py:73-79 | Mobility is the number of legal moves of my colour, whichever side is to move. |
| Agent.ThreatsScanOpponentMoves | agent.py:129-135 | Threats from player's perspective scan the opponent's legal moves: in the game itself when the opponent is to move, in a null-move copy otherwise. |
| Search.AlphaBeta | agent.py:176-210 | The search of one node (min_value for a minimizing node, max_value for a maximizing one) never leaves ±INF when the evaluations in its tree do not. Its relation to plain minimax is Search.AlphaBetaFailSoft. |
| Search.Scan | agent.py:186-210 | The successor loop never ends above its running value in a minimizing node nor below it in a maximizing one, and stays within ±INF when its start value and the evaluations do. |
| Search.AlphaBetaFailSoft | agent.py:176-210 | For any window -INF ≤ α < β ≤ INF, with v the unpruned minimax value and r the search result: v ≤ α gives v ≤ r ≤ α, v ≥ β gives β ≤ r ≤ v, and otherwise r = v. |
| Search.ScanFailSoft | agent.py:186-210 | The successor loop keeps the fail-soft relation to the minimax value of the successors seen so far, with or without a cut-off. |
| Search.FoldMonotone | agent.py:188 | A minimizing node's running value never rises as successors are added, and a maximizing node's never falls. |
| Search.MinimaxBounded | agent.py:177-186 | When every evaluation lies within ±INF, so does every minimax value. |
| Search.FullWindowExact | agent.py:60 | Under the root's full window (-INF, INF), pruning never changes the value: the search returns exactly the minimax value. |
| Search.FirstMax | agent.py:60 | The chosen index holds a maximal key, and every earlier key is strictly smaller (Python's `max` keeps the first maximum). |
| Search.FirstMaxFrom | agent.py:60 | Scanning left to right and replacing only on a strictly greater key ends at the first maximum. |
| Agent.VerdictOf | agent.py:179-184 | A win for my colour, a win for the opponent, a draw and an open game map to the four verdicts, in both directions. |
| Agent.ChildIsDoMove | agent.py:187 | The successors of the search tree are exactly the games do_move returns for the texts moves lists. |
| Agent.Unfold | agent.py:186-187 | Below the depth limit a node has one successor per legal move. At the limit it has none. |
| Agent.UnfoldSuccessorIsDoMove | agent.py:186-187 | Below the depth limit, successor i of a node is the tree of the game do_move returns for the i-th text moves lists, and do_move accepts that text. |
| Agent.RootValues | agent.py:60 | One key per legal root move, each within ±INF when the evaluations of its successor's tree are. Agent.RootValuesExact shows each key is the exact minimax value. |
| Agent.SelectMove | agent.py:59-60 | No move is chosen exactly when there is no legal move. Otherwise the chosen text is the text of the move at the chosen index. |
| Agent.ChosenIndex | agent.py:60 | The chosen root move has a maximal key, and every earlier move has a strictly smaller key. |
| Agent.EvaluateWithinSentinels | agent.py:167-174 | With move lists of at most 5000 entries the weighted sum lies strictly between -INF and +INF. |
| Agent.RootValuesExact | agent.py:60 | Every root key equals the exact minimax value of its successor and lies within ±INF. |
| Agent.ChoiceIsFirstMinimaxMaximum | agent.py:59-60 | The chosen move is the first root move of maximal minimax value. |
| Agent.ForcedWinSelected | agent.py:177-183 | A move that wins on the spot is worth +INF, so the chosen move is worth +INF as well. |
| Agent.StalemateTiesWithMate | agent.py:176-192 | On a concrete two-move root, a move that stalemates the opponent keeps the minimizing search's untouched +INF, ties with a mating move, and is chosen because it is listed first. |
| Agent.SearchTerminals | agent.py:176-192 | The depth limit is checked before the outcome. At the limit the search returns the evaluation even of a decided game. Below it a win is +INF and a loss is -INF. A draw with no legal move returns the untouched accumulator: +INF when minimizing, -INF when maximizing. |

## Left out

- The text protocol: `say`, `hear`, `loop`, board printing and the ignored time fields (agent.py:27-64). These are input/output plumbing.
- The opening book (agent.py:18, agent.py:54-58). It is a memory-mapped file with a random weighted choice. The model covers only the search fallback of a turn, and the agent's per-turn `update` of its own game is part of the loop that is left out.
- python-chess itself: legal-move generation, outcome detection, UCI parsing and printing, and null-move push/pop inside the board (state.py:7, state.py:11, state.py:15, state.py:19, state.py:35, state.py:42, agent.py:76-78, agent.py:132). These are fields of `Engine` or plain stack operations. `ChessState.WellFormed` assumes only that parsing the text of a legal move gives that move back.
- A wrong move raises `TypeError` in Python 3 (state.py:13, state.py:16). It is modelled only as `Rejected` / `WrongMove`.
- The board after a null move is read as `pieces` of the stack without the null move, because a null move moves no piece.
- Copy: the independence of a copy from its original is not stated as a separate property. Games are immutable values, so no change to one can reach the other.
- Agent.EvaluateWithinSentinels: holds only when every legal-move list has at most 5000 entries (`MoveListBound`). No chess position has more than 218 legal moves. The source relies on the same headroom without stating it.
- Search.FullWindowExact: needs every evaluation in the tree to lie within ±INF (`WithinSentinels`). `Agent.UnfoldWithinSentinels` proves this from the move-list bound.
- Agent.SelectMove: when there is no legal move, Python's `max` over the empty list raises inside the `except` block (agent.py:59-60). The model returns `None` instead of modelling the exception.
- The unused `random` imports (agent.py:4, state.py:1).

## Notes on the source

- The depth test is `depth >= MAX_DEPTH` (agent.py:177, agent.py:195), so a node at or beyond the limit is evaluated even when the game there is decided.
- A drawn position is not scored. Only a win or a loss returns at once, so a draw's remaining legal moves are still expanded (a draw by insufficient material still has legal moves). `Agent.SearchTerminals` pins the case with no successor, where the initial accumulator is returned.
- Two behaviours are kept as written. First, threats always count the agent's own pieces as targets, whichever perspective is measured. Second, the pawn shield counts pawns of either colour. `Evaluator.ThreatsProperties` and `Evaluator.PawnShieldIgnoresPawnColour` pin both.
- Because a draw is not scored, a root move that stalemates the opponent is worth the untouched +INF (agent.py:186, agent.py:192), just like a mating move. `max` then keeps whichever of the two is listed first (agent.py:60). `Agent.StalemateTiesWithMate` exhibits a root where the stalemate is chosen over the mate.

=== FILE: agent.dfy ===
/** The agent's decision: the engine's game unfolded into a search tree,
    the root move chosen by the first maximum of the minimizing search over
    every successor, and the evaluation kept below the win/loss sentinels. */
module Agent {
  import opened ChessTypes
  import opened Evaluator
  import opened Search
  import opened ChessState

  /** The outcome of a position as the search sees it from my side. */
  function VerdictOf(o: Outcome, me: Color): (v: Verdict)
    ensures v == OwnWin <==> o == WonBy(me)
    ensures v == OppWin <==> o == WonBy(Other(me))
    ensures v == Draw <==> o == Drawn
    ensures v == Open <==> o == Ongoing
  {
    match o
    case Ongoing => Open
    case Drawn => Draw
    case WonBy(w) => if w == me then OwnWin else OppWin
  }

  // ---------------------------------------------------------------------
  // What the evaluator reads from a game

  /** The snapshot of a game: the pieces, the side to move,
      its legal moves, and the legal moves after a null move. */
  function View(eng: Engine, g: Chess): Snapshot
  {
    Snapshot(eng.pieces(g.stack), Turn(g), eng.legal(g.stack), eng.legal(PushNull(g).stack))
  }

  /** Mobility counts the legal moves of me, in the game itself or in the
      null-move probe that is popped again. */
  lemma MobilityCountsOwnMoves(eng: Engine, g: Chess, me: Color)
    ensures Mobility(View(eng, g), me) == |eng.legal(ProbeFor(g, me).stack)|
  {
  }

  /** Threats from player's perspective scan the legal moves of player's
      opponent: the game itself when the opponent is to move, a null-move
      copy otherwise. */
  lemma ThreatsScanOpponentMoves(eng: Engine, g: Chess, me: Color, player: Color)
    ensures Threats(View(eng, g), me, player)
         == Sum(eng.legal(ProbeFor(g, Other(player)).stack), m => ThreatValue(eng.pieces(g.stack), me, m))
  {
    ThreatsProperties(View(eng, g), me, player, eng.pieces(g.stack));
  }

  // ---------------------------------------------------------------------
  // The search tree of a game

  /** The successor of g by its i-th legal move. */
  function Child(eng: Engine, g: Chess, i: nat): Chess
    requires i < |eng.legal(g.stack)|
  {
    Chess(g.stack + [Play(eng.legal(g.stack)[i])])
  }

  /** The successors the tree is built from are exactly the games
      do_move returns for the texts moves() lists. */
  lemma ChildIsDoMove(eng: Engine, g: Chess, i: nat)
    requires WellFormed(eng)
    requires i < |eng.legal(g.stack)|
    ensures DoMove(eng, g, Moves(eng, g)[i]) == Ok(Child(eng, g, i))
  {
    MovesAccepted(eng, g, i);
  }

  /** The game tree the search explores from g at the given depth: the
      outcome and evaluation of g, and below the depth limit one subtree
      per legal move, in the engine's order. */
  function Unfold(eng: Engine, me: Color, g: Chess, depth: nat): (t: Tree)
    ensures |t.children| == (if depth >= MaxDepth then 0 else |eng.legal(g.stack)|)
    decreases MaxDepth - depth
  {
    var legal := eng.legal(g.stack);
    Node(VerdictOf(eng.outcome(g.stack), me),
         Evaluate(View(eng, g), me),
         if depth >= MaxDepth then []
         else seq(|legal|, i requires 0 <= i < |legal| => Unfold(eng, me, Child(eng, g, i), depth + 1)))
  }

  /** Successor i of a node below the depth limit is the tree of the game
      do_move returns for the i-th text moves() lists. */
  lemma UnfoldSuccessorIsDoMove(eng: Engine, me: Color, g: Chess, depth: nat, i: nat)
    requires WellFormed(eng) && depth < MaxDepth && i < |eng.legal(g.stack)|
    ensures DoMove(eng, g, Moves(eng, g)[i]).Ok?
    ensures Unfold(eng, me, g, depth).children[i] == Unfold(eng, me, DoMove(eng, g, Moves(eng, g)[i]).value, depth + 1)
  {
    ChildIsDoMove(eng, g, i);
  }

  /** The key of each root move: the minimizing search of its successor
      at depth 0 under the full window. A key never leaves the sentinels
      when the evaluations of its successor's tree do not. */
  function RootValues(eng: Engine, me: Color, g: Chess): (vals: seq<int>)
    ensures |vals| == |eng.legal(g.stack)|
    ensures forall i :: 0 <= i < |vals| && WithinSentinels(Unfold(eng, me, Child(eng, g, i), 0)) ==>
      -INF <= vals[i] <= INF
  {
    var legal := eng.legal(g.stack);
    seq(|legal|, i requires 0 <= i < |legal| =>
      AlphaBeta(Unfold(eng, me, Child(eng, g, i), 0), Minimizer, -INF, INF, 0))
  }

  /** The index max picks: the first move whose key is maximal. */
  function ChosenIndex(eng: Engine, me: Color, g: Chess): (k: nat)
    requires |eng.legal(g.stack)| > 0
    ensures k < |eng.legal(g.stack)|
    ensures forall j :: 0 <= j < |eng.legal(g.stack)| ==> RootValues(eng, me, g)[j] <= RootValues(eng, me, g)[k]
    ensures forall j :: 0 <= j < k ==> RootValues(eng, me, g)[j] < RootValues(eng, me, g)[k]
  {
    FirstMax(RootValues(eng, me, g))
  }

  /** The search fallback of a turn: max over moves() keyed by the root
      values. Python's max raises on an empty sequence; that is None here. */
  function SelectMove(eng: Engine, me: Color, g: Chess): (r: Option<string>)
    ensures r.None? <==> |eng.legal(g.stack)| == 0
    ensures r.Some? ==> r.value == eng.uci(eng.legal(g.stack)[ChosenIndex(eng, me, g)])
  {
    var moves := Moves(eng, g);
    if |moves| == 0 then None else Some(moves[ChosenIndex(eng, me, g)])
  }

  // ---------------------------------------------------------------------
  // Heuristic sums stay below the sentinels

  /** A generous bound on the length of any legal-move list (no chess
      position has more than 218 legal moves). */
  const MoveListBound: nat := 5000

  ghost predicate MoveListsBounded(eng: Engine)
  {
    forall h :: |eng.legal(h)| <= MoveListBound
  }

  /** With move lists of bounded length the weighted sum stays strictly
      between the sentinels, so a forced win or loss always outranks it. */
  lemma EvaluateWithinSentinels(s: Snapshot, me: Color)
    requires |s.moves| <= MoveListBound && |s.passed| <= MoveListBound
    ensures -INF < Evaluate(s, me) < INF
  {
    assert |SideMoves(s, me)| <= MoveListBound;
    assert |SideMoves(s, Other(me))| <= MoveListBound;
  }

  lemma {:induction false} UnfoldWithinSentinels(eng: Engine, me: Color, g: Chess, depth: nat)
    requires MoveListsBounded(eng)
    ensures WithinSentinels(Unfold(eng, me, g, depth))
    decreases MaxDepth - depth
  {
    var t := Unfold(eng, me, g, depth);
    EvaluateWithinSentinels(View(eng, g), me);
    if depth < MaxDepth {
      forall i | 0 <= i < |t.children|
        ensures WithinSentinels(t.children[i])
      {
        UnfoldWithinSentinels(eng, me, Child(eng, g, i), depth + 1);
      }
    }
  }

  // ---------------------------------------------------------------------
  // What the root selection chooses

  /** Every root key is the exact minimax value of its successor: the full
      window never lets pruning change a key. */
  lemma RootValuesExact(eng: Engine, me: Color, g: Chess)
    requires MoveListsBounded(eng)
    ensures forall i :: 0 <= i < |eng.legal(g.stack)| ==>
      RootValues(eng, me, g)[i] == Minimax(Unfold(eng, me, Child(eng, g, i), 0), Minimizer, 0)
    ensures forall i :: 0 <= i < |eng.legal(g.stack)| ==> -INF <= RootValues(eng, me, g)[i] <= INF
  {
    forall i | 0 <= i < |eng.legal(g.stack)|
      ensures RootValues(eng, me, g)[i] == Minimax(Unfold(eng, me, Child(eng, g, i), 0), Minimizer, 0)
      ensures -INF <= RootValues(eng, me, g)[i] <= INF
    {
      var t := Unfold(eng, me, Child(eng, g, i), 0);
      UnfoldWithinSentinels(eng, me, Child(eng, g, i), 0);
      FullWindowExact(t, Minimizer, 0);
      MinimaxBounded(t, Minimizer, 0);
    }
  }

  /** The exact (unpruned) minimax value of the i-th root move. */
  function RootMinimax(eng: Engine, me: Color, g: Chess, i: nat): int
    requires i < |eng.legal(g.stack)|
  {
    Minimax(Unfold(eng, me, Child(eng, g, i), 0), Minimizer, 0)
  }

  /** The chosen move is the first root move of maximal minimax value. */
  lemma ChoiceIsFirstMinimaxMaximum(eng: Engine, me: Color, g: Chess)
    requires MoveListsBounded(eng)
    requires |eng.legal(g.stack)| > 0
    ensures forall j :: 0 <= j < |eng.legal(g.stack)| ==>
      RootMinimax(eng, me, g, j) <= RootMinimax(eng, me, g, ChosenIndex(eng, me, g))
    ensures forall j :: 0 <= j < ChosenIndex(eng, me, g) ==>
      RootMinimax(eng, me, g, j) < RootMinimax(eng, me, g, ChosenIndex(eng, me, g))
  {
    RootValuesExact(eng, me, g);
  }

  /** A move that wins on the spot is worth +INF, and then the chosen move
      is worth +INF too: no ordinary evaluation can outrank a forced win. */
  lemma ForcedWinSelected(eng: Engine, me: Color, g: Chess, w: nat)
    requires MoveListsBounded(eng)
    requires w < |eng.legal(g.stack)|
    requires eng.outcome(Child(eng, g, w).stack) == WonBy(me)
    ensures RootValues(eng, me, g)[w] == INF
    ensures RootMinimax(eng, me, g, ChosenIndex(eng, me, g)) == INF
  {
    RootValuesExact(eng, me, g);
    var k := ChosenIndex(eng, me, g);
    assert RootValues(eng, me, g)[w] == INF;
    assert RootValues(eng, me, g)[k] == INF;
  }

  /** The depth limit is checked before the outcome: at the limit the
      search returns the evaluation even of a decided position. Below it a
      win is +INF and a loss -INF, while a draw is not scored and, with no
      legal successor, returns the untouched accumulator: +INF in a
      minimizing call, -INF in a maximizing one. */
  lemma SearchTerminals(eng: Engine, me: Color, g: Chess, role: Role, alpha: int, beta: int, depth: nat)
    ensures depth >= MaxDepth ==>
      AlphaBeta(Unfold(eng, me, g, depth), role, alpha, beta, depth) == Evaluate(View(eng, g), me)
    ensures depth < MaxDepth && eng.outcome(g.stack) == WonBy(me) ==>
      AlphaBeta(Unfold(eng, me, g, depth), role, alpha, beta, depth) == INF
    ensures depth < MaxDepth && eng.outcome(g.stack) == WonBy(Other(me)) ==>
      AlphaBeta(Unfold(eng, me, g, depth), role, alpha, beta, depth) == -INF
    ensures depth < MaxDepth && eng.outcome(g.stack) == Drawn && |eng.legal(g.stack)| == 0 ==>
      AlphaBeta(Unfold(eng, me, g, depth), role, alpha, beta, depth) == (if role == Minimizer then INF else -INF)
  {
  }

  /** A draw is not scored: a root move that stalemates the opponent keeps
      the minimizing search's untouched +INF, ties with a mating move, and
      max keeps whichever is listed first. Here the stalemating move comes
      first and is chosen. */
  lemma StalemateTiesWithMate(m1: Move, m2: Move)
    requires m1 != m2
    ensures var eng := Engine(
              h => if h == [] then [m1, m2] else [],
              h => if h == [Play(m1)] then Drawn else if h == [Play(m2)] then WonBy(White) else Ongoing,
              h => map[],
              t => None,
              m => "");
            && eng.outcome(Child(eng, Chess([]), 0).stack) == Drawn
            && eng.outcome(Child(eng, Chess([]), 1).stack) == WonBy(White)
            && RootValues(eng, White, Chess([]))[0] == INF
            && RootValues(eng, White, Chess([]))[1] == INF
            && ChosenIndex(eng, White, Chess([])) == 0
  {
    var eng := Engine(
      h => if h == [] then [m1, m2] else [],
      h => if h == [Play(m1)] then Drawn else if h == [Play(m2)] then WonBy(White) else Ongoing,
      h => map[],
      t => None,
      m => "");
    var g := Chess([]);
    var c0 := Child(eng, g, 0);
    assert c0.stack == [Play(m1)];
    assert Child(eng, g, 1).stack == [Play(m2)];
    assert eng.legal(c0.stack) == [];
    var vals := RootValues(eng, White, g);
    assert vals[0] == INF;
    assert vals[1] == INF;
  }
}

=== FILE: chess_types.dfy ===
/** Vocabulary shared by the evaluator, the position adapter and the agent:
    colours, piece kinds, squares numbered 0..63 (a1 = 0, h1 = 7, a8 = 56,
    h8 = 63, as in python-chess), moves, boards and the piece-value table. */
module ChessTypes {

  datatype Option<+T> = None | Some(value: T)

  datatype Color = White | Black

  function Other(c: Color): (o: Color)
    ensures o != c
  {
    if c == White then Black else White
  }

  datatype PieceType = Pawn | Knight | Bishop | Rook | Queen | King

  datatype Piece = Piece(kind: PieceType, color: Color)

  type Square = s: int | 0 <= s < 64

  /** A board maps each occupied square to the piece standing on it. */
  type Board = map<Square, Piece>

  /** A move as python-chess sees it: origin, destination and an optional
      promotion piece. Its text form is supplied by the rules engine. */
  datatype Move = Move(from: Square, to: Square, promotion: Option<PieceType>)

  /** The PIECE_VALUES table (pawn 1, knight 3, bishop 3, rook 5, queen 9).
      The king has no entry; every use in the heuristics either skips it or
      scores it separately, so its value here is 0. */
  function ValueOf(k: PieceType): (v: nat)
    ensures v == 0 <==> k == King
    ensures v <= 9
  {
    match k
    case Pawn => 1
    case Knight => 3
    case Bishop => 3
    case Rook => 5
    case Queen => 9
    case King => 0
  }

  // Square names used by the heuristics.
  const A1: Square := 0
  const B1: Square := 1
  const C1: Square := 2
  const D1: Square := 3
  const F1: Square := 5
  const G1: Square := 6
  const H1: Square := 7
  const A2: Square := 8
  const B2: Square := 9
  const C2: Square := 10
  const F2: Square := 13
  const G2: Square := 14
  const H2: Square := 15
  const C3: Square := 18
  const D3: Square := 19
  const E3: Square := 20
  const F3: Square := 21
  const C4: Square := 26
  const D4: Square := 27
  const E4: Square := 28
  const F4: Square := 29
  const C5: Square := 34
  const D5: Square := 35
  const E5: Square := 36
  const F5: Square := 37
  const C6: Square := 42
  const D6: Square := 43
  const E6: Square := 44
  const F6: Square := 45
  const A7: Square := 48
  const B7: Square := 49
  const C7: Square := 50
  const F7: Square := 53
  const G7: Square := 54
  const H7: Square := 55
  const A8: Square := 56
  const B8: Square := 57
  const C8: Square := 58
  const D8: Square := 59
  const F8: Square := 61
  const G8: Square := 62
  const H8: Square := 63

  /** The kind standing on a square of the standard back rank (file 0..7). */
  function BackRank(file: int): PieceType
    requires 0 <= file < 8
  {
    if file == 0 || file == 7 then Rook
    else if file == 1 || file == 6 then Knight
    else if file == 2 || file == 5 then Bishop
    else if file == 3 then Queen
    else King
  }

  /** The standard starting position (the board of a fresh chess.Board()). */
  function InitialBoard(): Board
  {
    map s: Square | s < 16 || 48 <= s ::
      if s < 8 then Piece(BackRank(s), White)
      else if s < 16 then Piece(Pawn, White)
      else if s < 56 then Piece(Pawn, Black)
      else Piece(BackRank(s - 56), Black)
  }
}

=== FILE: evaluator.dfy ===
/** The six sub-heuristics of the agent's evaluation function and their
    weighted sum. Everything the rules engine would compute is handed in
    through a Snapshot: the pieces on the board, the side to move, the legal
    moves of the side to move, and the legal moves after a null move (that
    is, the moves of the side NOT to move). */
module Evaluator {
  import opened ChessTypes

  datatype Snapshot = Snapshot(board: Board, turn: Color, moves: seq<Move>, passed: seq<Move>)

  /** The legal moves of colour c in the snapshot: the direct list when c is
      to move, the list after a null move otherwise. */
  function SideMoves(s: Snapshot, c: Color): seq<Move>
  {
    if c == s.turn then s.moves else s.passed
  }

  // ---------------------------------------------------------------------
  // Sums over sequences

  function Sum<T>(xs: seq<T>, f: T -> nat): nat
  {
    if xs == [] then 0 else f(xs[0]) + Sum(xs[1..], f)
  }

  lemma {:induction false} SumBound<T>(xs: seq<T>, f: T -> nat, k: nat)
    requires forall i :: 0 <= i < |xs| ==> f(xs[i]) <= k
    ensures Sum(xs, f) <= k * |xs|
  {
    if xs != [] {
      assert f(xs[0]) <= k;
      SumBound(xs[1..], f, k);
    }
  }

  lemma {:induction false} SumMonotone<T>(xs: seq<T>, f: T -> nat, g: T -> nat)
    requires forall i :: 0 <= i < |xs| ==> f(xs[i]) <= g(xs[i])
    ensures Sum(xs, f) <= Sum(xs, g)
  {
    if xs != [] {
      assert f(xs[0]) <= g(xs[0]);
      SumMonotone(xs[1..], f, g);
    }
  }

  lemma {:induction false} SumCongruent<T>(xs: seq<T>, f: T -> nat, g: T -> nat)
    requires forall i :: 0 <= i < |xs| ==> f(xs[i]) == g(xs[i])
    ensures Sum(xs, f) == Sum(xs, g)
  {
    if xs != [] {
      assert f(xs[0]) == g(xs[0]);
      SumCongruent(xs[1..], f, g);
    }
  }

  /** A sum reaches the pointwise upper bound only if every term does. */
  lemma {:induction false} SumAtBound<T>(xs: seq<T>, f: T -> nat, g: T -> nat)
    requires forall i :: 0 <= i < |xs| ==> f(xs[i]) <= g(xs[i])
    requires Sum(xs, f) == Sum(xs, g)
    ensures forall i :: 0 <= i < |xs| ==> f(xs[i]) == g(xs[i])
  {
    if xs != [] {
      SumMonotone(xs[1..], f, g);
      SumAtBound(xs[1..], f, g);
      forall i | 0 <= i < |xs|
        ensures f(xs[i]) == g(xs[i])
      {
        if i > 0 {
          assert xs[i] == xs[1..][i - 1];
        }
      }
    }
  }

  /** Two term functions that agree everywhere except at index j: the
      sums differ exactly by the two terms at j. */
  lemma {:induction false} SumExceptAt<T>(xs: seq<T>, f: T -> nat, g: T -> nat, j: nat)
    requires j < |xs|
    requires forall i :: 0 <= i < |xs| && i != j ==> f(xs[i]) == g(xs[i])
    ensures Sum(xs, g) + f(xs[j]) == Sum(xs, f) + g(xs[j])
  {
    if j == 0 {
      forall i | 0 <= i < |xs[1..]|
        ensures f(xs[1..][i]) == g(xs[1..][i])
      {
        assert xs[1..][i] == xs[i + 1];
      }
      SumCongruent(xs[1..], f, g);
    } else {
      assert f(xs[0]) == g(xs[0]);
      forall i | 0 <= i < |xs[1..]| && i != j - 1
        ensures f(xs[1..][i]) == g(xs[1..][i])
      {
        assert xs[1..][i] == xs[i + 1];
      }
      SumExceptAt(xs[1..], f, g, j - 1);
    }
  }

  // ---------------------------------------------------------------------
  // Material

  /** The squares holding a piece of the given kind and colour
      (python-chess's board.pieces(kind, colour)). */
  function PiecesOf(b: Board, k: PieceType, c: Color): set<Square>
  {
    set s | s in b && b[s] == Piece(k, c)
  }

  /** PIECE_VALUES summed over one colour's pawns, knights, bishops, rooks
      and queens; kings are not counted. At most 64 pieces fit on the
      board, each worth at most a queen. */
  function Material(b: Board, c: Color): (r: nat)
    ensures r <= 9 * 64
  {
    MaterialBound(b, c);
    assert ValueOf(Pawn) == 1 && ValueOf(Knight) == 3 && ValueOf(Bishop) == 3;
    assert ValueOf(Rook) == 5 && ValueOf(Queen) == 9;
    ValueOf(Pawn) * |PiecesOf(b, Pawn, c)|
    + ValueOf(Knight) * |PiecesOf(b, Knight, c)|
    + ValueOf(Bishop) * |PiecesOf(b, Bishop, c)|
    + ValueOf(Rook) * |PiecesOf(b, Rook, c)|
    + ValueOf(Queen) * |PiecesOf(b, Queen, c)|
  }

  /** Placing a piece on an empty square adds it to exactly one of the
      piece sets: its own kind and colour. */
  lemma PiecesAfterPlacing(b: Board, sq: Square, p: Piece, k: PieceType, c: Color)
    requires sq !in b
    ensures |PiecesOf(b[sq := p], k, c)| == |PiecesOf(b, k, c)| + (if p == Piece(k, c) then 1 else 0)
  {
    if p == Piece(k, c) {
      assert PiecesOf(b[sq := p], k, c) == PiecesOf(b, k, c) + {sq};
    } else {
      assert PiecesOf(b[sq := p], k, c) == PiecesOf(b, k, c);
    }
  }

  /** A piece placed on an empty square adds its PIECE_VALUES entry to its
      own colour's material (nothing for a king). */
  lemma MaterialOfPlacedPiece(b: Board, sq: Square, k: PieceType, c: Color)
    requires sq !in b
    ensures Material(b[sq := Piece(k, c)], c) == Material(b, c) + ValueOf(k)
  {
    var p := Piece(k, c);
    PiecesAfterPlacing(b, sq, p, Pawn, c);
    PiecesAfterPlacing(b, sq, p, Knight, c);
    PiecesAfterPlacing(b, sq, p, Bishop, c);
    PiecesAfterPlacing(b, sq, p, Rook, c);
    PiecesAfterPlacing(b, sq, p, Queen, c);
    match k
    case Pawn =>
    case Knight =>
    case Bishop =>
    case Rook =>
    case Queen =>
    case King =>
  }

  /** ... and leaves the other colour's material as it was. */
  lemma MaterialOfOtherColour(b: Board, sq: Square, k: PieceType, c: Color)
    requires sq !in b
    ensures Material(b[sq := Piece(k, c)], Other(c)) == Material(b, Other(c))
  {
    var p := Piece(k, c);
    PiecesAfterPlacing(b, sq, p, Pawn, Other(c));
    PiecesAfterPlacing(b, sq, p, Knight, Other(c));
    PiecesAfterPlacing(b, sq, p, Bishop, Other(c));
    PiecesAfterPlacing(b, sq, p, Rook, Other(c));
    PiecesAfterPlacing(b, sq, p, Queen, Other(c));
  }

  /** Boards that agree on every non-king piece. */
  predicate SameNonKings(b: Board, b': Board)
  {
    forall s: Square ::
      (s in b && b[s].kind != King ==> s in b' && b'[s] == b[s]) &&
      (s in b' && b'[s].kind != King ==> s in b && b[s] == b'[s])
  }

  /** Kings contribute nothing: moving, adding or removing kings leaves the
      material of both colours unchanged. */
  lemma MaterialIgnoresKings(b: Board, b': Board, c: Color)
    requires SameNonKings(b, b')
    ensures Material(b, c) == Material(b', c)
  {
    forall k | k != King
      ensures PiecesOf(b, k, c) == PiecesOf(b', k, c)
    {
    }
  }

  /** The square reflected across the board's horizontal mid-line
      (a1 <-> a8, e2 <-> e7). */
  function Mirror(s: Square): Square
  {
    (7 - s / 8) * 8 + s % 8
  }

  lemma MirrorInvolution(s: Square)
    ensures Mirror(Mirror(s)) == s
  {
  }

  /** A colour-symmetric board: every piece has a piece of the same kind and
      the other colour on its mirrored square. */
  predicate ColourSymmetric(b: Board)
  {
    forall s: Square :: s in b ==>
      Mirror(s) in b && b[Mirror(s)] == Piece(b[s].kind, Other(b[s].color))
  }

  function MirrorImage(S: set<Square>): set<Square>
  {
    set s | s in S :: Mirror(s)
  }

  lemma {:induction false} MirrorImageSize(S: set<Square>)
    ensures |MirrorImage(S)| == |S|
    decreases |S|
  {
    if S != {} {
      var x :| x in S;
      var R := S - {x};
      MirrorImageSize(R);
      assert MirrorImage(S) == MirrorImage(R) + {Mirror(x)};
      if Mirror(x) in MirrorImage(R) {
        var y :| y in R && Mirror(y) == Mirror(x);
        MirrorInvolution(x);
        MirrorInvolution(y);
        assert false;
      }
    }
  }

  lemma SymmetricPieces(b: Board, k: PieceType, c: Color)
    requires ColourSymmetric(b)
    ensures PiecesOf(b, k, c) == MirrorImage(PiecesOf(b, k, Other(c)))
  {
    forall s: Square
      ensures s in PiecesOf(b, k, c) <==> s in MirrorImage(PiecesOf(b, k, Other(c)))
    {
      MirrorInvolution(s);
      if s in PiecesOf(b, k, c) {
        assert Mirror(s) in PiecesOf(b, k, Other(c));
      }
      if s in MirrorImage(PiecesOf(b, k, Other(c))) {
        var t :| t in PiecesOf(b, k, Other(c)) && Mirror(t) == s;
        MirrorInvolution(t);
      }
    }
  }

  /** On a colour-symmetric board both colours have the same material, so
      the material balance is zero. */
  lemma SymmetricMaterialBalance(b: Board)
    requires ColourSymmetric(b)
    ensures Material(b, White) - Material(b, Black) == 0
  {
    forall k
      ensures |PiecesOf(b, k, White)| == |PiecesOf(b, k, Black)|
    {
      SymmetricPieces(b, k, White);
      MirrorImageSize(PiecesOf(b, k, Black));
    }
  }

  lemma InitialSymmetricAt(s: Square)
    requires s in InitialBoard()
    ensures Mirror(s) in InitialBoard()
    ensures InitialBoard()[Mirror(s)] == Piece(InitialBoard()[s].kind, Other(InitialBoard()[s].color))
  {
    if s < 8 {
      assert Mirror(s) == s + 56;
    } else if s < 16 {
      assert Mirror(s) == s + 40;
    } else if s < 56 {
      assert Mirror(s) == s - 40;
    } else {
      assert Mirror(s) == s - 56;
    }
  }

  /** The standard starting position is colour-symmetric, so its material
      balance is zero. */
  lemma InitialMaterialBalance()
    ensures ColourSymmetric(InitialBoard())
    ensures Material(InitialBoard(), White) - Material(InitialBoard(), Black) == 0
  {
    forall s: Square | s in InitialBoard()
      ensures Mirror(s) in InitialBoard()
      ensures InitialBoard()[Mirror(s)] == Piece(InitialBoard()[s].kind, Other(InitialBoard()[s].color))
    {
      InitialSymmetricAt(s);
    }
    SymmetricMaterialBalance(InitialBoard());
  }

  lemma {:induction false} BoundedSetSize(S: set<int>, n: nat)
    requires forall s :: s in S ==> 0 <= s < n
    ensures |S| <= n
  {
    if n == 0 {
      forall x
        ensures x !in S
      {
      }
      assert S == {};
    } else {
      BoundedSetSize(S - {n - 1}, n - 1);
    }
  }

  lemma SquareSetSize(S: set<Square>)
    ensures |S| <= 64
  {
    var T: set<int> := set s | s in S :: s as int;
    assert T == S;
    BoundedSetSize(T, 64);
  }

  lemma DisjointUnionSize(A: set<Square>, B: set<Square>)
    requires A !! B
    ensures |A + B| == |A| + |B|
  {
  }

  /** The valued pieces of one colour stand on pairwise different squares,
      so there are at most 64 of them. */
  lemma {:induction false} MaterialBound(b: Board, c: Color)
    ensures |PiecesOf(b, Pawn, c)| + |PiecesOf(b, Knight, c)| + |PiecesOf(b, Bishop, c)|
          + |PiecesOf(b, Rook, c)| + |PiecesOf(b, Queen, c)| <= 64
  {
    var p, n, bi, r, q := PiecesOf(b, Pawn, c), PiecesOf(b, Knight, c), PiecesOf(b, Bishop, c),
                          PiecesOf(b, Rook, c), PiecesOf(b, Queen, c);
    DisjointUnionSize(p, n);
    DisjointUnionSize(p + n, bi);
    DisjointUnionSize(p + n + bi, r);
    DisjointUnionSize(p + n + bi + r, q);
    SquareSetSize(p + n + bi + r + q);
  }

  // ---------------------------------------------------------------------
  // Mobility

  /** The number of legal moves of colour me: counted directly when me is
      to move, otherwise after a null move (the probe is undone by the
      position adapter, which builds the snapshot). */
  function Mobility(s: Snapshot, me: Color): (r: nat)
    ensures r == |SideMoves(s, me)|
  {
    if s.turn == me then |s.moves| else |s.passed|
  }

  // ---------------------------------------------------------------------
  // Center control

  const CenterSquares: seq<Square> := [D4, D5, E4, E5]

  const OuterCenterSquares: seq<Square> :=
    [D3, D6, C6, C5, C4, C3, E6, E3, F6, F5, F4, F3]

  /** The ring a square belongs to: 2 for the four inner squares, 1 for the
      twelve squares around them, 0 elsewhere. */
  function RingWeight(sq: Square): (w: nat)
    ensures w <= 2
    ensures w == 2 <==> sq in CenterSquares
    ensures w == 1 <==> sq in OuterCenterSquares
    ensures w == 0 <==> sq !in CenterSquares && sq !in OuterCenterSquares
  {
    if sq in CenterSquares then 2
    else if sq in OuterCenterSquares then 1
    else 0
  }

  /** The occupancy bonus of one square: the piece's value, plus 5 for a
      pawn, when the piece belongs to me; nothing otherwise. */
  function OccupancyBonus(b: Board, me: Color, sq: Square): (r: nat)
    ensures r <= 9
    ensures sq !in b || b[sq].color != me ==> r == 0
    ensures sq in b && b[sq] == Piece(Pawn, me) ==> r == 6
    ensures sq in b && b[sq].color == me && b[sq].kind != Pawn ==> r == ValueOf(b[sq].kind)
  {
    if sq in b && b[sq].color == me then
      ValueOf(b[sq].kind) + (if b[sq].kind == Pawn then 5 else 0)
    else 0
  }

  /** The occupancy part for one ring; the same function serves both rings. */
  function RingOccupancy(b: Board, me: Color, ring: seq<Square>): nat
  {
    Sum(ring, sq => OccupancyBonus(b, me, sq))
  }

  /** Center control: every legal move of the side to move scored by the
      ring of its destination, plus the occupancy bonus of my own pieces
      on the inner and on the outer ring. */
  function CenterControl(s: Snapshot, me: Color): (r: nat)
    ensures r <= 2 * |s.moves| + 9 * 16
  {
    SumBound(s.moves, (m: Move) => RingWeight(m.to), 2);
    RingOccupancyBound(s.board, me, CenterSquares);
    RingOccupancyBound(s.board, me, OuterCenterSquares);
    Sum(s.moves, (m: Move) => RingWeight(m.to))
    + RingOccupancy(s.board, me, CenterSquares)
    + RingOccupancy(s.board, me, OuterCenterSquares)
  }

  /** Two boards carrying the same pieces of colour me; they may differ
      arbitrarily in the other colour's pieces and in empty squares. */
  predicate SameOwnPieces(b: Board, b': Board, me: Color)
  {
    forall sq: Square ::
      (sq in b && b[sq].color == me ==> sq in b' && b'[sq] == b[sq]) &&
      (sq in b' && b'[sq].color == me ==> sq in b && b[sq] == b'[sq])
  }

  lemma RingOccupancyBound(b: Board, me: Color, ring: seq<Square>)
    ensures RingOccupancy(b, me, ring) <= 9 * |ring|
  {
    SumBound(ring, sq => OccupancyBonus(b, me, sq), 9);
  }

  lemma RingOccupancyOwnOnly(b: Board, b': Board, me: Color, ring: seq<Square>)
    requires SameOwnPieces(b, b', me)
    ensures RingOccupancy(b, me, ring) == RingOccupancy(b', me, ring)
  {
    forall i | 0 <= i < |ring|
      ensures OccupancyBonus(b, me, ring[i]) == OccupancyBonus(b', me, ring[i])
    {
    }
    SumCongruent(ring, sq => OccupancyBonus(b, me, sq), sq => OccupancyBonus(b', me, sq));
  }

  /** Center control is bounded by 2 per legal move plus 9 per ring
      square, and the opponent's pieces never contribute to it. */
  lemma CenterControlProperties(s: Snapshot, me: Color, b': Board)
    requires SameOwnPieces(s.board, b', me)
    ensures CenterControl(s, me) <= 2 * |s.moves| + 9 * 16
    ensures CenterControl(s.(board := b'), me) == CenterControl(s, me)
  {
    SumBound(s.moves, (m: Move) => RingWeight(m.to), 2);
    RingOccupancyBound(s.board, me, CenterSquares);
    RingOccupancyBound(s.board, me, OuterCenterSquares);
    RingOccupancyOwnOnly(s.board, b', me, CenterSquares);
    RingOccupancyOwnOnly(s.board, b', me, OuterCenterSquares);
  }

  /** Each legal move of the side to move adds its destination's ring
      weight. */
  lemma CenterControlAddMove(s: Snapshot, me: Color, m: Move)
    ensures CenterControl(s.(moves := [m] + s.moves), me) == CenterControl(s, me) + RingWeight(m.to)
  {
  }

  /** An empty board with no legal moves has no center control. */
  lemma CenterControlEmpty(t: Color, passed: seq<Move>, me: Color)
    ensures CenterControl(Snapshot(map[], t, [], passed), me) == 0
  {
    var b: Board := map[];
    forall i | 0 <= i < |CenterSquares|
      ensures OccupancyBonus(b, me, CenterSquares[i]) == 0
    {
    }
    forall i | 0 <= i < |OuterCenterSquares|
      ensures OccupancyBonus(b, me, OuterCenterSquares[i]) == 0
    {
    }
    SumBound(CenterSquares, sq => OccupancyBonus(b, me, sq), 0);
    SumBound(OuterCenterSquares, sq => OccupancyBonus(b, me, sq), 0);
  }

  predicate DistinctSquares(ring: seq<Square>)
  {
    forall i, j :: 0 <= i < j < |ring| ==> ring[i] != ring[j]
  }

  /** Placing a piece on an empty square adds its bonus once to a ring of
      distinct squares that contains it, and nothing to one that does not. */
  lemma RingOccupancyPlace(b: Board, me: Color, ring: seq<Square>, sq: Square, p: Piece)
    requires sq !in b
    requires DistinctSquares(ring)
    ensures RingOccupancy(b[sq := p], me, ring)
         == RingOccupancy(b, me, ring) + (if sq in ring then OccupancyBonus(b[sq := p], me, sq) else 0)
  {
    var b' := b[sq := p];
    var f := t => OccupancyBonus(b, me, t);
    var g := t => OccupancyBonus(b', me, t);
    if sq in ring {
      var j :| 0 <= j < |ring| && ring[j] == sq;
      SumExceptAt(ring, f, g, j);
    } else {
      SumCongruent(ring, f, g);
    }
  }

  /** Placing one of the pieces on an empty square adds its occupancy bonus
      when the square lies on either ring, and nothing otherwise. */
  lemma CenterControlPlace(s: Snapshot, me: Color, sq: Square, p: Piece)
    requires sq !in s.board
    ensures CenterControl(s.(board := s.board[sq := p]), me)
         == CenterControl(s, me)
          + (if sq in CenterSquares || sq in OuterCenterSquares then OccupancyBonus(s.board[sq := p], me, sq) else 0)
  {
    assert DistinctSquares(CenterSquares);
    assert DistinctSquares(OuterCenterSquares);
    RingOccupancyPlace(s.board, me, CenterSquares, sq, p);
    RingOccupancyPlace(s.board, me, OuterCenterSquares, sq, p);
  }

  // ---------------------------------------------------------------------
  // Pawn shield

  /** The shield zone of each of the eight corner squares a king may
      castle or hide on. */
  function ShieldOf(sq: Square): (r: Option<seq<Square>>)
    ensures r.Some? <==> sq in [G1, H1, B1, A1, A8, B8, G8, H8]
    ensures r.Some? ==> |r.value| == 3
  {
    if sq == G1 || sq == H1 then Some([F2, G2, H2])
    else if sq == B1 || sq == A1 then Some([C2, B2, A2])
    else if sq == A8 || sq == B8 then Some([C7, B7, A7])
    else if sq == G8 || sq == H8 then Some([F7, G7, H7])
    else None
  }

  /** 1 when a pawn of either colour stands on the square. */
  function PawnAt(b: Board, sq: Square): nat
  {
    if sq in b && b[sq].kind == Pawn then 1 else 0
  }

  predicate OwnKingAt(b: Board, me: Color, sq: Square)
  {
    sq in b && b[sq] == Piece(King, me)
  }

  /** The shield score of one square: the pawns on its shield zone when my
      king stands there and the square has a zone, 0 otherwise. */
  function KingShield(b: Board, me: Color, sq: Square): nat
  {
    if OwnKingAt(b, me, sq) && ShieldOf(sq).Some? then Sum(ShieldOf(sq).value, t => PawnAt(b, t))
    else 0
  }

  /** A square scores 1 per pawn on its shield zone when my king stands
      on it and it is a corner, so 3 exactly when the zone is full of
      pawns and 0 exactly when it holds none; any other square scores 0. */
  lemma KingShieldCounts(b: Board, me: Color, sq: Square)
    ensures !(OwnKingAt(b, me, sq) && ShieldOf(sq).Some?) ==> KingShield(b, me, sq) == 0
    ensures OwnKingAt(b, me, sq) && ShieldOf(sq).Some? ==>
      var z := ShieldOf(sq).value;
      && KingShield(b, me, sq) == PawnAt(b, z[0]) + PawnAt(b, z[1]) + PawnAt(b, z[2])
      && (KingShield(b, me, sq) == 3 <==> forall i :: 0 <= i < 3 ==> PawnAt(b, z[i]) == 1)
      && (KingShield(b, me, sq) == 0 <==> forall i :: 0 <= i < 3 ==> PawnAt(b, z[i]) == 0)
  {
    if OwnKingAt(b, me, sq) && ShieldOf(sq).Some? {
      var z := ShieldOf(sq).value;
      var f := t => PawnAt(b, t);
      assert Sum(z, f) == f(z[0]) + Sum(z[1..], f);
      assert Sum(z[1..], f) == f(z[1]) + Sum(z[2..], f);
      assert Sum(z[2..], f) == f(z[2]) + Sum(z[3..], f);
    }
  }

  /** The shield scores of squares lo..63: python-chess lists my king's
      squares in ascending order, and squares without my king add 0. */
  function ShieldFrom(b: Board, me: Color, lo: nat): nat
    requires lo <= 64
    decreases 64 - lo
  {
    if lo == 64 then 0 else KingShield(b, me, lo) + ShieldFrom(b, me, lo + 1)
  }

  /** The pawn shield of all my kings; at most 3 per own king on a corner
      square, so at most 3 * 64. */
  function PawnShield(b: Board, me: Color): (r: nat)
    ensures r <= 3 * CornerKingsFrom(b, me, 0) <= 3 * 64
  {
    PawnShieldBound(b, me, 0);
    ShieldFrom(b, me, 0)
  }

  /** 1 for a corner square holding my king. */
  function CornerKing(b: Board, me: Color, sq: Square): nat
  {
    if OwnKingAt(b, me, sq) && ShieldOf(sq).Some? then 1 else 0
  }

  /** The number of my kings on corner squares among lo..63. */
  function CornerKingsFrom(b: Board, me: Color, lo: nat): (n: nat)
    requires lo <= 64
    ensures n <= 64 - lo
    decreases 64 - lo
  {
    if lo == 64 then 0 else CornerKing(b, me, lo) + CornerKingsFrom(b, me, lo + 1)
  }

  lemma KingShieldBound(b: Board, me: Color, sq: Square)
    ensures KingShield(b, me, sq) <= 3 * CornerKing(b, me, sq)
  {
    if OwnKingAt(b, me, sq) && ShieldOf(sq).Some? {
      SumBound(ShieldOf(sq).value, t => PawnAt(b, t), 1);
    }
  }

  /** The pawn shield adds at most 3 per own king on a corner square, so
      it is 0 when no own king stands on one. */
  lemma {:induction false} PawnShieldBound(b: Board, me: Color, lo: nat)
    requires lo <= 64
    ensures ShieldFrom(b, me, lo) <= 3 * CornerKingsFrom(b, me, lo)
    decreases 64 - lo
  {
    if lo < 64 {
      KingShieldBound(b, me, lo);
      PawnShieldBound(b, me, lo + 1);
    }
  }

  /** Boards with pawns (of any colour) on the same squares and my kings on
      the same squares. */
  predicate SamePawnsAndOwnKings(b: Board, b': Board, me: Color)
  {
    forall sq: Square ::
      PawnAt(b, sq) == PawnAt(b', sq) && (OwnKingAt(b, me, sq) <==> OwnKingAt(b', me, sq))
  }

  /** The pawn shield never looks at whose pawns stand on the shield: two
      boards that differ only in the colour of their pawns score the same. */
  lemma {:induction false} PawnShieldIgnoresPawnColour(b: Board, b': Board, me: Color, lo: nat)
    requires lo <= 64
    requires SamePawnsAndOwnKings(b, b', me)
    ensures ShieldFrom(b, me, lo) == ShieldFrom(b', me, lo)
    decreases 64 - lo
  {
    if lo < 64 {
      var sq: Square := lo;
      if OwnKingAt(b, me, sq) && ShieldOf(sq).Some? {
        var zone := ShieldOf(sq).value;
        forall i | 0 <= i < |zone|
          ensures PawnAt(b, zone[i]) == PawnAt(b', zone[i])
        {
        }
        SumCongruent(zone, t => PawnAt(b, t), t => PawnAt(b', t));
      }
      PawnShieldIgnoresPawnColour(b, b', me, lo + 1);
    }
  }

  /** With my kings on no square but k, the squares lo..63 score k's
      shield when they include k, and nothing otherwise. */
  lemma {:induction false} ShieldFromOneKing(b: Board, me: Color, k: Square, lo: nat)
    requires lo <= 64
    requires forall sq: Square :: OwnKingAt(b, me, sq) ==> sq == k
    ensures ShieldFrom(b, me, lo) == (if lo <= k then KingShield(b, me, k) else 0)
    decreases 64 - lo
  {
    if lo < 64 {
      ShieldFromOneKing(b, me, k, lo + 1);
    }
  }

  /** With a single king of mine, standing on k, the pawn shield is exactly
      the shield score of k. */
  lemma PawnShieldOneKing(b: Board, me: Color, k: Square)
    requires forall sq: Square :: OwnKingAt(b, me, sq) ==> sq == k
    ensures PawnShield(b, me) == KingShield(b, me, k)
  {
    ShieldFromOneKing(b, me, k, 0);
  }

  // ---------------------------------------------------------------------
  // Threats

  /** What one move threatens: 20 when it lands on my king, the piece value
      when it lands on another of my pieces, nothing otherwise. */
  function ThreatValue(b: Board, me: Color, m: Move): (r: nat)
    ensures r <= 20
    ensures m.to !in b || b[m.to].color != me ==> r == 0
    ensures m.to in b && b[m.to] == Piece(King, me) ==> r == 20
    ensures m.to in b && b[m.to].color == me && b[m.to].kind != King ==> r == ValueOf(b[m.to].kind)
  {
    if m.to in b && b[m.to].color == me then
      (if b[m.to].kind == King then 20 else ValueOf(b[m.to].kind))
    else 0
  }

  /** Threats seen from player's perspective: when player is to move the
      turn is passed first, so the moves scanned are always those of
      player's opponent; the targets counted are always MY pieces. */
  function Threats(s: Snapshot, me: Color, player: Color): (r: nat)
    ensures r == Sum(SideMoves(s, Other(player)), m => ThreatValue(s.board, me, m))
    ensures r <= 20 * |SideMoves(s, Other(player))|
  {
    SumBound(SideMoves(s, Other(player)), m => ThreatValue(s.board, me, m), 20);
    var scanned := if s.turn == player then s.passed else s.moves;
    Sum(scanned, m => ThreatValue(s.board, me, m))
  }

  /** The scan covers exactly the opponent of player's legal moves, is
      bounded by 20 per move, and ignores the opponent's pieces whichever
      perspective is taken. */
  lemma ThreatsProperties(s: Snapshot, me: Color, player: Color, b': Board)
    requires SameOwnPieces(s.board, b', me)
    ensures Threats(s, me, player) == Sum(SideMoves(s, Other(player)), m => ThreatValue(s.board, me, m))
    ensures Threats(s, me, player) <= 20 * |SideMoves(s, Other(player))|
    ensures Threats(s.(board := b'), me, player) == Threats(s, me, player)
  {
    var scanned := SideMoves(s, Other(player));
    SumBound(scanned, m => ThreatValue(s.board, me, m), 20);
    forall i | 0 <= i < |scanned|
      ensures ThreatValue(s.board, me, scanned[i]) == ThreatValue(b', me, scanned[i])
    {
    }
    SumCongruent(scanned, m => ThreatValue(s.board, me, m), m => ThreatValue(b', me, m));
  }

  // ---------------------------------------------------------------------
  // Piece activation

  /** The home squares of each colour's rooks, knights, bishops and queen. */
  function StartingSquares(c: Color): seq<(PieceType, Square)>
  {
    if c == White then
      [(Rook, H1), (Rook, A1), (Knight, G1), (Knight, B1), (Bishop, F1), (Bishop, C1), (Queen, D1)]
    else
      [(Rook, H8), (Rook, A8), (Knight, G8), (Knight, B8), (Bishop, F8), (Bishop, C8), (Queen, D8)]
  }

  predicate AtHome(b: Board, player: Color, e: (PieceType, Square))
  {
    e.1 in b && b[e.1] == Piece(e.0, player)
  }

  /** A home square scores its piece's value when that very piece (right
      kind, player's colour) still stands on it. */
  function HomeValue(b: Board, player: Color, e: (PieceType, Square)): nat
  {
    if AtHome(b, player, e) then ValueOf(e.0) else 0
  }

  /** The values of player's pieces still on their home squares; at most
      the 31 of all seven. */
  function Activation(b: Board, player: Color): (r: nat)
    ensures r <= 31
  {
    StartingValues(player);
    SumMonotone(StartingSquares(player), e => HomeValue(b, player, e), (e: (PieceType, Square)) => ValueOf(e.0));
    Sum(StartingSquares(player), e => HomeValue(b, player, e))
  }

  lemma StartingValues(c: Color)
    ensures Sum(StartingSquares(c), (e: (PieceType, Square)) => ValueOf(e.0)) == 31
  {
    var xs := StartingSquares(c);
    var f := (e: (PieceType, Square)) => ValueOf(e.0);
    assert Sum(xs[7..], f) == 0;
    assert Sum(xs[6..], f) == 9;
    assert Sum(xs[5..], f) == 12;
    assert Sum(xs[4..], f) == 15;
    assert Sum(xs[3..], f) == 18;
    assert Sum(xs[2..], f) == 21;
    assert Sum(xs[1..], f) == 26;
  }

  /** Activation lies in 0..31 and reaches 31 exactly when all seven pieces
      still stand on their home squares. */
  lemma ActivationRange(b: Board, player: Color)
    ensures Activation(b, player) <= 31
    ensures Activation(b, player) == 31 <==>
      forall i :: 0 <= i < 7 ==> AtHome(b, player, StartingSquares(player)[i])
  {
    var xs := StartingSquares(player);
    var f := e => HomeValue(b, player, e);
    var g := (e: (PieceType, Square)) => ValueOf(e.0);
    StartingValues(player);
    SumMonotone(xs, f, g);
    if Activation(b, player) == 31 {
      SumAtBound(xs, f, g);
      forall i | 0 <= i < 7
        ensures AtHome(b, player, xs[i])
      {
        assert f(xs[i]) == g(xs[i]);
      }
    }
    if forall i :: 0 <= i < 7 ==> AtHome(b, player, xs[i]) {
      SumCongruent(xs, f, g);
    }
  }

  /** In the starting position both colours score the full 31. */
  lemma InitialActivation(player: Color)
    ensures Activation(InitialBoard(), player) == 31
  {
    var xs := StartingSquares(player);
    forall i | 0 <= i < 7
      ensures AtHome(InitialBoard(), player, xs[i])
    {
      var sq := xs[i].1;
      if player == White {
        assert sq < 8 && InitialBoard()[sq] == Piece(BackRank(sq), White);
      } else {
        assert sq >= 56 && InitialBoard()[sq] == Piece(BackRank(sq - 56), Black);
      }
    }
    ActivationRange(InitialBoard(), player);
  }

  /** Taking one of player's home pieces off its home square lowers the
      activation by exactly that piece's value. */
  lemma ActivationLosesHomePiece(b: Board, player: Color, j: nat)
    requires j < 7 && AtHome(b, player, StartingSquares(player)[j])
    ensures Activation(b - {StartingSquares(player)[j].1}, player) + ValueOf(StartingSquares(player)[j].0)
         == Activation(b, player)
  {
    var xs := StartingSquares(player);
    var b' := b - {xs[j].1};
    var f := e => HomeValue(b, player, e);
    var g := e => HomeValue(b', player, e);
    forall i | 0 <= i < |xs| && i != j
      ensures f(xs[i]) == g(xs[i])
    {
      assert xs[i].1 != xs[j].1;
    }
    SumExceptAt(xs, f, g, j);
  }

  // ---------------------------------------------------------------------
  // The weighted sum

  /** The evaluation of a position from my point of view. Only the
      mobility, center-control and threat terms grow with the move lists;
      every other term is bounded by the board. */
  function Evaluate(s: Snapshot, me: Color): (r: int)
    ensures r <= 5 * 9 * 64 + 82 * |SideMoves(s, me)| + 4 * |s.moves| + 2 * 9 * 16 + 3 * 64
    ensures r >= -5 * 9 * 64 - 80 * |SideMoves(s, Other(me))| - 3 * 31
  {
    assert Other(Other(me)) == me;
    5 * (Material(s.board, me) - Material(s.board, Other(me)))
    + 2 * Mobility(s, me)
    + 2 * CenterControl(s, me)
    + 1 * PawnShield(s.board, me)
    - 4 * Threats(s, me, me)
    + 4 * Threats(s, me, Other(me))
    - 3 * Activation(s.board, me)
  }
}

=== FILE: search.dfy ===
/** The depth-bounded, fail-soft minimax search with alpha-beta pruning,
    over an explicit game tree. A node carries the decided outcome of its
    position (from the agent's point of view), the evaluation of its
    position and its successors in legal-move order. A single search
    function serves both kinds of node: its Role says whether the node
    maximizes or minimizes. */
module Search {

  /** The sentinel for a forced win (+INF) or loss (-INF). */
  const INF: int := 1000000

  /** Nodes at this depth or deeper are evaluated, not expanded. */
  const MaxDepth: nat := 2

  datatype Verdict = Open | OwnWin | OppWin | Draw

  datatype Tree = Node(verdict: Verdict, score: int, children: seq<Tree>)

  datatype Role = Maximizer | Minimizer

  function Opposite(r: Role): (o: Role)
    ensures o != r
  {
    if r == Maximizer then Minimizer else Maximizer
  }

  function Min(a: int, b: int): (m: int)
    ensures m <= a && m <= b && (m == a || m == b)
  {
    if b < a then b else a
  }

  function Max(a: int, b: int): (m: int)
    ensures m >= a && m >= b && (m == a || m == b)
  {
    if b > a then b else a
  }

  /** The accumulator a node starts from: -INF for a maximizing call,
      +INF for a minimizing one. */
  function Init(role: Role): int
  {
    if role == Maximizer then -INF else INF
  }

  function Combine(role: Role, a: int, b: int): int
  {
    if role == Maximizer then Max(a, b) else Min(a, b)
  }

  // ---------------------------------------------------------------------
  // The search as the agent runs it

  /** The search of one node: the depth limit is checked first, then a
      decided win or loss; a draw falls through to the expansion step.
      The result never leaves the sentinels when the evaluations do not. */
  function AlphaBeta(t: Tree, role: Role, alpha: int, beta: int, depth: nat): (r: int)
    ensures WithinSentinels(t) ==> -INF <= r <= INF
    decreases t, 1
  {
    if depth >= MaxDepth then t.score
    else if t.verdict == OwnWin then INF
    else if t.verdict == OppWin then -INF
    else Scan(t, role, alpha, beta, depth, 0, Init(role))
  }

  /** The loop over the successors from index i on, with the running value
      and the current window. A minimizing node returns as soon as its
      value is <= alpha and otherwise lowers beta; a maximizing node
      returns as soon as its value is >= beta and otherwise raises alpha.
      A minimizing loop never ends above its running value and a
      maximizing one never below it. */
  function Scan(t: Tree, role: Role, alpha: int, beta: int, depth: nat, i: nat, value: int): (r: int)
    requires i <= |t.children|
    ensures role == Minimizer ==> r <= value
    ensures role == Maximizer ==> r >= value
    ensures WithinSentinels(t) && -INF <= value <= INF ==> -INF <= r <= INF
    decreases t, 0, |t.children| - i
  {
    if i == |t.children| then value
    else
      var v := Combine(role, value, AlphaBeta(t.children[i], Opposite(role), alpha, beta, depth + 1));
      if role == Minimizer then
        if v <= alpha then v else Scan(t, role, alpha, Min(beta, v), depth, i + 1, v)
      else
        if v >= beta then v else Scan(t, role, Max(alpha, v), beta, depth, i + 1, v)
  }

  // ---------------------------------------------------------------------
  // The reference: plain minimax without pruning

  function Minimax(t: Tree, role: Role, depth: nat): int
    decreases t, 1
  {
    if depth >= MaxDepth then t.score
    else if t.verdict == OwnWin then INF
    else if t.verdict == OppWin then -INF
    else Fold(t, role, depth, |t.children|)
  }

  /** The combination of the first k successors' minimax values, starting
      from the same accumulator as the search. */
  function Fold(t: Tree, role: Role, depth: nat, k: nat): int
    requires k <= |t.children|
    decreases t, 0, k
  {
    if k == 0 then Init(role)
    else Combine(role, Fold(t, role, depth, k - 1), Minimax(t.children[k - 1], Opposite(role), depth + 1))
  }

  // ---------------------------------------------------------------------
  // Pruning is sound

  /** The fail-soft relation between the minimax value v and the search
      result r in the window (alpha, beta): a value at or below alpha is
      reported as some r between v and alpha, a value at or above beta as
      some r between beta and v, and a value inside the window exactly. */
  predicate FailSoft(v: int, r: int, alpha: int, beta: int)
  {
    && (v <= alpha ==> v <= r <= alpha)
    && (v >= beta ==> beta <= r <= v)
    && (alpha < v < beta ==> r == v)
  }

  lemma {:induction false} FoldMonotone(t: Tree, role: Role, depth: nat, j: nat, k: nat)
    requires j <= k <= |t.children|
    ensures role == Minimizer ==> Fold(t, role, depth, k) <= Fold(t, role, depth, j)
    ensures role == Maximizer ==> Fold(t, role, depth, k) >= Fold(t, role, depth, j)
    decreases k - j
  {
    if j < k {
      FoldMonotone(t, role, depth, j, k - 1);
    }
  }

  /** Alpha-beta is fail-soft with respect to plain minimax for every
      window inside the sentinels. */
  lemma {:induction false} AlphaBetaFailSoft(t: Tree, role: Role, alpha: int, beta: int, depth: nat)
    requires -INF <= alpha < beta <= INF
    ensures FailSoft(Minimax(t, role, depth), AlphaBeta(t, role, alpha, beta, depth), alpha, beta)
    decreases t, 1
  {
    if depth < MaxDepth && t.verdict != OwnWin && t.verdict != OppWin {
      ScanFailSoft(t, role, alpha, beta, alpha, beta, depth, 0, Init(role));
    }
  }

  /** The loop invariant of Scan: the running value is fail-soft for the
      minimax value of the successors seen so far, no cut-off has fired,
      and the current window is the original one tightened by the running
      value. */
  lemma {:induction false} ScanFailSoft(t: Tree, role: Role, a0: int, b0: int, alpha: int, beta: int,
                                        depth: nat, i: nat, value: int)
    requires -INF <= a0 < b0 <= INF
    requires i <= |t.children|
    requires role == Minimizer ==> alpha == a0 && beta == Min(b0, value) && a0 < value
    requires role == Maximizer ==> beta == b0 && alpha == Max(a0, value) && value < b0
    requires FailSoft(Fold(t, role, depth, i), value, a0, b0)
    ensures FailSoft(Fold(t, role, depth, |t.children|), Scan(t, role, alpha, beta, depth, i, value), a0, b0)
    decreases t, 0, |t.children| - i
  {
    if i < |t.children| {
      var child := t.children[i];
      var m := Minimax(child, Opposite(role), depth + 1);
      var r := AlphaBeta(child, Opposite(role), alpha, beta, depth + 1);
      AlphaBetaFailSoft(child, Opposite(role), alpha, beta, depth + 1);
      var v := Combine(role, value, r);
      assert Fold(t, role, depth, i + 1) == Combine(role, Fold(t, role, depth, i), m);
      if role == Minimizer {
        if v <= alpha {
          FoldMonotone(t, role, depth, i + 1, |t.children|);
        } else {
          ScanFailSoft(t, role, a0, b0, alpha, Min(beta, v), depth, i + 1, v);
        }
      } else {
        if v >= beta {
          FoldMonotone(t, role, depth, i + 1, |t.children|);
        } else {
          ScanFailSoft(t, role, a0, b0, Max(alpha, v), beta, depth, i + 1, v);
        }
      }
    }
  }

  /** Every evaluation in the tree stays within the sentinels. */
  predicate WithinSentinels(t: Tree)
    decreases t
  {
    && -INF <= t.score <= INF
    && forall i :: 0 <= i < |t.children| ==> WithinSentinels(t.children[i])
  }

  lemma {:induction false} MinimaxBounded(t: Tree, role: Role, depth: nat)
    requires WithinSentinels(t)
    ensures -INF <= Minimax(t, role, depth) <= INF
    decreases t, 1
  {
    if depth < MaxDepth && t.verdict != OwnWin && t.verdict != OppWin {
      FoldBounded(t, role, depth, |t.children|);
    }
  }

  lemma {:induction false} FoldBounded(t: Tree, role: Role, depth: nat, k: nat)
    requires WithinSentinels(t)
    requires k <= |t.children|
    ensures -INF <= Fold(t, role, depth, k) <= INF
    decreases t, 0, k
  {
    if k > 0 {
      FoldBounded(t, role, depth, k - 1);
      MinimaxBounded(t.children[k - 1], Opposite(role), depth + 1);
    }
  }

  /** Under the root's full window (-INF, INF) pruning never changes the
      value: the search returns exactly the minimax value. */
  lemma FullWindowExact(t: Tree, role: Role, depth: nat)
    requires WithinSentinels(t)
    ensures AlphaBeta(t, role, -INF, INF, depth) == Minimax(t, role, depth)
  {
    MinimaxBounded(t, role, depth);
    AlphaBetaFailSoft(t, role, -INF, INF, depth);
  }

  // ---------------------------------------------------------------------
  // Root selection

  /** Python's max over a non-empty sequence of keys: scan left to right,
      replacing the best index only on a strictly greater key. best is the
      first maximum of vals[..i]. */
  function FirstMaxFrom(vals: seq<int>, i: nat, best: nat): (k: nat)
    requires best < i <= |vals|
    requires forall j :: 0 <= j < i ==> vals[j] <= vals[best]
    requires forall j :: 0 <= j < best ==> vals[j] < vals[best]
    ensures k < |vals|
    ensures forall j :: 0 <= j < |vals| ==> vals[j] <= vals[k]
    ensures forall j :: 0 <= j < k ==> vals[j] < vals[k]
    decreases |vals| - i
  {
    if i == |vals| then best
    else if vals[i] > vals[best] then FirstMaxFrom(vals, i + 1, i)
    else FirstMaxFrom(vals, i + 1, best)
  }

  /** The index of the first maximal key: every key is at most the chosen
      one and every earlier key is strictly smaller. */
  function FirstMax(vals: seq<int>): (k: nat)
    requires |vals| > 0
    ensures k < |vals|
    ensures forall j :: 0 <= j < |vals| ==> vals[j] <= vals[k]
    ensures forall j :: 0 <= j < k ==> vals[j] < vals[k]
  {
    FirstMaxFrom(vals, 1, 0)
  }
}

=== FILE: state.dfy ===
/** The position adapter: a game is the move stack of a python-chess board
    that started from the standard position. Everything the rules engine
    decides (legal moves, outcome, piece placement, the text form of a move)
    is an oracle over that stack, collected in an Engine value. */
module ChessState {
  import opened ChessTypes

  /** One entry of the move stack: a real move or a null move (a pass). */
  datatype Ply = Play(move: Move) | NullMove

  datatype Outcome = Ongoing | Drawn | WonBy(winner: Color)

  /** The rules engine's answers for any move stack. */
  datatype Engine = Engine(
    legal: seq<Ply> -> seq<Move>,
    outcome: seq<Ply> -> Outcome,
    pieces: seq<Ply> -> Board,
    parse: string -> Option<Move>,
    uci: Move -> string)

  /** The engine reads back the text it writes for every legal move. */
  ghost predicate WellFormed(eng: Engine)
  {
    forall h, m :: m in eng.legal(h) ==> eng.parse(eng.uci(m)) == Some(m)
  }

  datatype Chess = Chess(stack: seq<Ply>)

  datatype Result<+T> = Ok(value: T) | WrongMove

  /** The update's reply: the move was refused before anything was pushed,
      or it was pushed and the game's result code is reported. */
  datatype Reply = Rejected | Pushed(code: Option<int>)

  /** White moves first and every entry of the stack, null moves included,
      hands the turn over. */
  function Turn(g: Chess): Color
  {
    if |g.stack| % 2 == 0 then White else Black
  }

  /** The result code update reports: nothing while the game goes on, 0
      for a draw, -1 when White has won and +1 when Black has won. */
  function Code(o: Outcome): (r: Option<int>)
    ensures r == None <==> o == Ongoing
    ensures r == Some(0) <==> o == Drawn
    ensures r == Some(-1) <==> o == WonBy(White)
    ensures r == Some(1) <==> o == WonBy(Black)
  {
    match o
    case Ongoing => None
    case Drawn => Some(0)
    case WonBy(White) => Some(-1)
    case WonBy(Black) => Some(1)
  }

  /** Reading an outcome back from its code. */
  function OutcomeOfCode(c: Option<int>): Outcome
  {
    match c
    case None => Ongoing
    case Some(k) => if k == 0 then Drawn else if k < 0 then WonBy(White) else WonBy(Black)
  }

  /** The code loses nothing: every outcome is recovered from its code. */
  lemma CodeRoundTrip(o: Outcome)
    ensures OutcomeOfCode(Code(o)) == o
  {
  }

  /** Chess.update: parse the text, refuse it unless it names a legal move,
      otherwise push it and report the result code of the new position. */
  function Update(eng: Engine, g: Chess, text: string): (r: (Chess, Reply))
    ensures r.1.Rejected? <==> eng.parse(text).None? || eng.parse(text).value !in eng.legal(g.stack)
    ensures r.1.Rejected? ==> r.0 == g
    ensures r.1.Pushed? ==> r.0.stack == g.stack + [Play(eng.parse(text).value)]
    ensures r.1.Pushed? ==> r.1.code == Code(eng.outcome(r.0.stack))
  {
    match eng.parse(text)
    case None => (g, Rejected)
    case Some(m) =>
      if m !in eng.legal(g.stack) then (g, Rejected)
      else
        var next := Chess(g.stack + [Play(m)]);
        (next, Pushed(Code(eng.outcome(next.stack))))
  }

  /** copy: a game is a value, so a copy is equal to the original and no
      later change to either can reach the other. */
  function Copy(g: Chess): (c: Chess)
    ensures c == g
  {
    Chess(g.stack)
  }

  /** Chess.do_move: update a copy and return it; the receiver is a value
      and is never changed. A refused move propagates as WrongMove. */
  function DoMove(eng: Engine, g: Chess, text: string): (r: Result<Chess>)
    ensures r.WrongMove? <==> eng.parse(text).None? || eng.parse(text).value !in eng.legal(g.stack)
    ensures r.Ok? ==> r.value.stack == g.stack + [Play(eng.parse(text).value)]
  {
    var (next, reply) := Update(eng, Copy(g), text);
    if reply.Rejected? then WrongMove else Ok(next)
  }

  /** Chess.moves: the text of every legal move, in the engine's order. */
  function Moves(eng: Engine, g: Chess): (r: seq<string>)
    ensures |r| == |eng.legal(g.stack)|
    ensures forall i :: 0 <= i < |r| ==> r[i] == eng.uci(eng.legal(g.stack)[i])
  {
    var legal := eng.legal(g.stack);
    seq(|legal|, i requires 0 <= i < |legal| => eng.uci(legal[i]))
  }

  /** Every text moves() offers is accepted by do_move, and the successor
      holds exactly the receiver's stack plus that one move: sibling
      successors never see each other's moves. */
  lemma MovesAccepted(eng: Engine, g: Chess, i: nat)
    requires WellFormed(eng)
    requires i < |eng.legal(g.stack)|
    ensures DoMove(eng, g, Moves(eng, g)[i]) == Ok(Chess(g.stack + [Play(eng.legal(g.stack)[i])]))
  {
    var m := eng.legal(g.stack)[i];
    assert eng.parse(eng.uci(m)) == Some(m);
  }

  /** A move text that does not parse, or parses to a move outside the
      legal list, is refused and leaves the game as it was. */
  lemma IllegalMoveRefused(eng: Engine, g: Chess, text: string)
    requires eng.parse(text).None? || eng.parse(text).value !in eng.legal(g.stack)
    ensures Update(eng, g, text) == (g, Rejected)
    ensures DoMove(eng, g, text) == WrongMove
  {
  }

  // ---------------------------------------------------------------------
  // The null-move probe

  function PushNull(g: Chess): Chess
  {
    Chess(g.stack + [NullMove])
  }

  function Pop(g: Chess): Chess
    requires |g.stack| > 0
  {
    Chess(g.stack[..|g.stack| - 1])
  }

  /** Pushing a null move and popping it restores the game, and in between
      the other side is to move. */
  lemma ProbeRestores(g: Chess)
    ensures Pop(PushNull(g)) == g
    ensures Turn(PushNull(g)) == Other(Turn(g))
  {
    assert PushNull(g).stack[..|g.stack|] == g.stack;
  }

  /** The game itself when c is to move, otherwise the game after a null
      move: the position in which c's legal moves are listed. */
  function ProbeFor(g: Chess, c: Color): (p: Chess)
    ensures Turn(p) == c
    ensures p == g || (p == PushNull(g) && Pop(p) == g)
  {
    ProbeRestores(g);
    if Turn(g) == c then g else PushNull(g)
  }
}
